=== FILE: README.md ===
# sunpy.io file-type detection and reader dispatch, in Dafny

This project models the decision logic of `sunpy/io/_file_tools.py`:

- `detect_filetype`, the content sniffer. It checks a fixed, ordered list of signatures: the ASDF marker, gzip-wrapped or plain FITS keyword cards, the two JPEG 2000 signature boxes, the HDF5 signature, and the CDF magic numbers.
- `_KNOWN_EXTENSIONS`, the table that maps groups of file-name suffixes to reader names.
- `_READERS`, the reader registry. An optional reader that failed to import is registered as `None`, and looking it up raises `ReaderError`.
- `_read`, the read dispatcher behind `read_file` and `read_file_header`. It tries an explicit file type first, then the detected type, then a path-suffix fallback.
- `write_file`'s choice of writer. It resolves by suffix only and never reads content.

Everything is pure. A stream is its byte content (`seq<bv8>`), its path (`string`), and the bytes its gzip decompression would yield. Decompression is I/O, so those bytes are an input. Raised exceptions are `Err` values (`Outcomes.Error`). Reader handlers are an opaque type parameter `H`. A successful dispatch returns the tag and handler that would be called.

Modules:

- `Outcomes`: Option, Result and Error.
- `Tags`: the format tags and their names.
- `Probes`: bounded reads, `readline()` and `bytes.hex()` on a byte sequence.
- `Signatures`: the detector as written (`Detect`) and a prefix-test reference (`Classify`), proved equal.
- `Extensions`: the suffix table, both matching loops, and the pathlib suffix.
- `Readers`: the registry and its lookup.
- `Dispatch`: `_read` and `write_file`.

Main results:

- The regular expression `[A-Z0-9_]{0,8} *=` matches exactly when the maximal leading run of `[A-Z0-9_]` bytes has at most 8 bytes and is followed by spaces and `=`. The run may be empty.
- Two `readline()` calls concatenate to a JPEG 2000 signature exactly when the stream starts with that signature.
- The hex-string CDF test is a byte-prefix test.
- The later magic numbers never pass the FITS test.
- For a gzip stream only the FITS test sees the decompressed bytes.
- No path ends with suffixes from two different groups, so the path fallback does not depend on the table's order.
- `_read` and `write_file` resolve as listed above, including their error cases.

Behaviour of the code worth noting, all of it modelled as written:

- The FITS pattern's keyword may be empty (`{0,8}`), so a stream starting with `=` or `   =` is `fits`.
- An explicit `filetype` goes straight to the registry (line 107). The docstrings of `_read`, `read_file` and `read_file_header` (lines 94-96, 130-132, 157-159) describe it as a "supported reader or extension". An extension that is not also a reader name, such as `fts`, still raises KeyError: it is never resolved through the table.
- In `_read` the fallback also runs when the detected type is not a registry key (`asdf`, `hdf5`, `cdf`), not only when detection fails.
- The fallback's `filetype in extension` test on line 117 always sees `None` there, so only the path matters.
- `path.endswith(suffixes)` adds no dot. `myfits` therefore ends with `fits`.
- No suffix of the table ends a suffix of another group. So at most one group matches a path, and the table's order does not matter.

## Model

| member | source | states |
|---|---|---|
| Tags.TagOf | sunpy/io/_file_tools.py:49-53 | parsing a reader name gives a tag whose name is that string, and fails only for strings that name no tag |
| Probes.Take | sunpy/io/_file_tools.py:223-230 | `seek(0); read(n)` yields a prefix of the stream of length min(n, stream length) |
| Probes.ReadLine | sunpy/io/_file_tools.py:220-221 | `readline()` yields a prefix of the stream with no newline before its last byte, ending in a newline whenever it stops short of the end, and non-empty on a non-empty stream |
| Probes.FirstTwoLines | sunpy/io/_file_tools.py:220-221 | the two successive lines, concatenated, are a prefix of the stream |
| Probes.Hex | sunpy/io/_file_tools.py:230 | `bytes.hex()` produces two characters per byte |
| Probes.HexInjective | sunpy/io/_file_tools.py:230 | equal hex renderings come from equal byte strings |
| Signatures.KeywordRun | sunpy/io/_file_tools.py:244 | the maximal leading run of `[A-Z0-9_]` bytes: every byte in it is in the class and the byte after it is not |
| Signatures.SpaceRun | sunpy/io/_file_tools.py:244 | the maximal leading run of spaces: every byte in it is a space and the byte after it is not |
| Signatures.KeywordCardMatchIffFitsCard | sunpy/io/_file_tools.py:243-246 | the anchored regex `[A-Z0-9_]{0,8} *=` matches iff the maximal keyword run has at most 8 bytes and is followed by spaces and then `=` |
| Signatures.FirstTwoLinesIsSignature | sunpy/io/_file_tools.py:254-258 | `line1 + line2` equals a JPEG 2000 signature iff the stream's first 12 bytes are that signature |
| Signatures.CdfMagicSpelling | sunpy/io/_file_tools.py:264 | the hex strings `cdf30001`, `cdf26002`, `0000ffff` are the renderings of the bytes CD F3 00 01, CD F2 60 02, 00 00 FF FF |
| Signatures.CdfHexIffBytes | sunpy/io/_file_tools.py:228-230 | the 4-byte probe's hex rendering is one of the CDF strings iff the probe is one of the CDF byte sequences |
| Signatures.Detect | sunpy/io/_file_tools.py:219-267 | detection yields one of asdf, fits, jp2, hdf5, cdf (never ana), and its only failure is UnrecognizedFileTypeError |
| Signatures.ProbesArePrefixTests | sunpy/io/_file_tools.py:219-264 | each probe comparison of the code (80-byte ASDF test, 3-byte gzip test, line test, 8-byte test, hex test) asks the same question as a prefix test on the stream |
| Signatures.DetectIsClassify | sunpy/io/_file_tools.py:219-267 | on every stream and every decompressed prefix, the detector as written gives the same result as the ordered prefix-test classifier |
| Signatures.MagicsAreNotCards | sunpy/io/_file_tools.py:243-265 | no stream starting with a JPEG 2000, HDF5 or CDF magic number passes the FITS test, so testing FITS first never misclassifies them |
| Signatures.AsdfComesFirst | sunpy/io/_file_tools.py:232-234 | detection gives asdf iff the stream starts with `#ASDF`, regardless of the decompressed bytes |
| Signatures.Jp2SignatureDetected | sunpy/io/_file_tools.py:254-258 | a stream starting with either JPEG 2000 signature is jp2 |
| Signatures.Hdf5SignatureDetected | sunpy/io/_file_tools.py:260-262 | a stream starting with 89 48 44 46 0D 0A 1A 0A is hdf5 |
| Signatures.CdfSignatureDetected | sunpy/io/_file_tools.py:264-265 | a stream starting with CD F3 00 01, CD F2 60 02 or 00 00 FF FF is cdf |
| Signatures.NoMagicNested | sunpy/io/_file_tools.py:233-264 | no magic number the detector compares against is a proper prefix of another |
| Signatures.TruncatedMagicUnrecognized | sunpy/io/_file_tools.py:232-267 | the empty stream, and every stream cut short inside the ASDF, JPEG 2000, HDF5 or CDF magic, raises UnrecognizedFileTypeError |
| Signatures.GzipOnlyAffectsCard | sunpy/io/_file_tools.py:237-265 | for a stream starting 1F 8B 08 the result is fits iff the first 80 decompressed bytes pass the FITS test, and otherwise unrecognised, since the later tests still see the compressed bytes |
| Signatures.GunzippedIgnoredWithoutGzip | sunpy/io/_file_tools.py:239-241 | without the gzip magic the decompressed bytes do not influence detection |
| Signatures.KeywordCardDetected | sunpy/io/_file_tools.py:243-246 | a stream whose first 80 bytes begin with at most 8 keyword bytes, spaces and `=` is fits |
| Signatures.SimpleCardDetected | sunpy/io/_file_tools.py:243-246 | a stream starting `SIMPLE  =` is fits |
| Extensions.FirstGroup | sunpy/io/_file_tools.py:116-118 | the fallback loop finds a tag iff some group matches, and then it is the tag of the first matching group |
| Extensions.GroupOf | sunpy/io/_file_tools.py:197-199 | the write loop finds a tag iff some group holds the file type exactly, and then it is such a group's tag |
| Extensions.SuffixesDoNotNest | sunpy/io/_file_tools.py:28-32 | no suffix of one group ends a suffix of another group |
| Extensions.SuffixInOneGroup | sunpy/io/_file_tools.py:28-32 | every suffix string belongs to exactly one group |
| Extensions.PathMatchesOneGroup | sunpy/io/_file_tools.py:116-117 | no path ends with suffixes from two different groups |
| Extensions.FallbackOrderIndependent | sunpy/io/_file_tools.py:116-118 | walking the table's groups in any order gives the same fallback result |
| Extensions.AutoFiletype | sunpy/io/_file_tools.py:195 | the derived file type contains no dot and no slash, and when non-empty the path ends with a dot followed by it |
| Extensions.AutoFiletypeOfName | sunpy/io/_file_tools.py:194-195 | a path `stem.ext` (non-empty stem not ending in `/`, non-empty ext without dot or slash) yields exactly `ext` |
| Readers.Lookup | sunpy/io/_file_tools.py:38-46 | a present key with a handler returns that handler unchanged, a present key registered as None raises ReaderError, and a missing key raises KeyError (not ReaderError) |
| Readers.ConfiguredLookup | sunpy/io/_file_tools.py:38-53 | in the configured registry only "fits", "jp2" and "ana" are keys, each giving its handler or ReaderError, and every other string gives KeyError |
| Dispatch.Open | sunpy/io/_file_tools.py:112-118 | indexing the registry by a tag yields exactly the handler registered as available under that tag, ReaderError for a tag registered as unavailable, and KeyError for a missing one |
| Dispatch.Read | sunpy/io/_file_tools.py:105-120 | whatever the route, a successful read uses a handler that the registry holds as available under the returned tag, and with an explicit file type that tag is the one the file type names |
| Dispatch.ReadByPath | sunpy/io/_file_tools.py:116-120 | the path fallback opens the reader of the first matching group, so it succeeds only through a matching group and gives that group's ReaderError or KeyError otherwise; it raises UnrecognizedFileTypeError iff no group matches |
| Dispatch.Write | sunpy/io/_file_tools.py:193-201 | a successful write uses a group that holds the resolved file type, and ValueError naming the file type is raised iff no group holds it |
| Dispatch.ReadOverrideIsKeyLookup | sunpy/io/_file_tools.py:106-107 | with an explicit file type neither the content nor the path matters; the read succeeds iff that string names an available registry entry, raises ReaderError when it names an entry registered as `None`, and raises KeyError when it names no entry; a success uses exactly the handler registered under that key |
| Dispatch.ReadExtensionOverrideFails | sunpy/io/_file_tools.py:106-107 | extension strings that are not reader names ("fts", "j2k", "jpc", "jpt", "fz", "f0") raise KeyError when given as the file type |
| Dispatch.ReadUsesDetectedReader | sunpy/io/_file_tools.py:109-113 | a detected type that is a registry key is used whatever the path, and an unavailable reader's ReaderError propagates with no path fallback |
| Dispatch.ReadFallbackUsesGroup | sunpy/io/_file_tools.py:110-118 | when detection fails or gives a non-key, a path ending in a suffix of a group is read with that group's reader: success if its entry is available, ReaderError if not |
| Dispatch.ReadFallsBackToPath | sunpy/io/_file_tools.py:113-120 | when detection fails or gives a non-key, a success comes from a group whose suffix ends the path, and the read is unrecognised iff no table suffix ends the path |
| Dispatch.SniffOnlyTagsFallBack | sunpy/io/_file_tools.py:110-118 | with the configured registry, asdf, hdf5 and cdf streams are resolved by path exactly like streams in which nothing was detected |
| Dispatch.ConfiguredReadUnrecognized | sunpy/io/_file_tools.py:105-120 | with the configured registry and no explicit type, the read is unrecognised iff detection gives neither fits nor jp2 and no table suffix ends the path, and it never raises KeyError |
| Dispatch.EmptyJ2kReadByExtension | sunpy/io/_file_tools.py:109-118 | an empty stream named `image.j2k` is read with the JPEG 2000 reader |
| Dispatch.GroupOfSuffix | sunpy/io/_file_tools.py:197-199 | exact membership finds the one group that holds a table suffix |
| Dispatch.WriteExplicitSuffix | sunpy/io/_file_tools.py:197-199 | each table suffix given as the file type selects its group's reader, whatever the path |
| Dispatch.PathFallbackOfName | sunpy/io/_file_tools.py:116-118 | a path ending in `.ext` for a table suffix `ext` falls back to that suffix's group |
| Dispatch.WriteAutoAgreesWithRead | sunpy/io/_file_tools.py:194-199 | under "auto" a destination `stem.ext` is written by ext's group, and reading that path by suffix selects the same group |
| Dispatch.WriteRejectsUpperCase | sunpy/io/_file_tools.py:197-201 | "FITS" is rejected with ValueError, because membership is case-sensitive |
| Dispatch.WriteRejectsNoSuffix | sunpy/io/_file_tools.py:194-201 | under "auto" every path whose suffix is empty is rejected with ValueError naming the empty file type |
| Dispatch.WriteRejectsUnknownSuffix | sunpy/io/_file_tools.py:194-201 | under "auto" `out.xyz` is rejected with ValueError naming "xyz" |

## Left out

- `get_open_file` and `fsspec.open`: I/O plumbing. Its only decision is raising TypeError for an argument that is not a string, path or OpenFile.
- Gzip decompression: the decompressed bytes are an input to `Detect`. A failure to decompress (for example a corrupt gzip stream) is not modelled.
- The readers' `read`, `get_header` and `write` calls and their keyword arguments: the handlers are opaque, and dispatch returns the handler it would call. An exception raised inside the handler call on line 112 is not modelled. (An UnrecognizedFileTypeError raised there would be caught by line 113.)
- `read_file` and `read_file_header`: each only opens the path and calls `_read` with the name of the handler function. That name makes no difference to which handler is chosen.
- The `try/except ImportError` imports: they are represented only by the three entries given to `Readers.Configured`.
- Context managers, stream positions and closing: the probes are modelled as reads from the start of an immutable byte sequence.
- Extensions.AutoFiletype: the suffix follows pathlib's rule (last dot of the final component, neither first nor last character) applied to the text after the last `/`. It does not model pathlib's normalisation of trailing slashes, `.` and `..` components, or Windows separators.
- Python-level type errors (for example an unhashable `filetype`) are not modelled; file types are strings.

=== FILE: dispatch.dfy ===
/** `_read` (behind `read_file` and `read_file_header`) and `write_file`: how a
    reader is chosen for a stream, and a writer for a destination.

    The stream is modelled by its path, its content and the bytes its gzip
    decompression would yield. The handler's own `read`, `get_header` or `write`
    call is not modelled: a successful dispatch returns the tag and handler it
    would call. */
module Dispatch {
  import opened Outcomes
  import opened Tags
  import opened Signatures
  import opened Extensions
  import opened Readers

  /** The reader a request is dispatched to. */
  datatype Resolved<+H> = Resolved(tag: Tag, handler: H)

  /** `_READERS[Name(t)]`, kept with the tag it was looked up for. */
  function Open<H>(reg: Registry<H>, t: Tag): (r: Result<Resolved<H>>)
    ensures r.Ok? ==> r.value.tag == t && t in reg && reg[t] == Available(r.value.handler)
    ensures r.Err? ==> r.error == (if t in reg then ReaderUnavailable(Name(t)) else KeyNotFound(Name(t)))
    ensures t in reg && reg[t].Available? ==> r == Ok(Resolved(t, reg[t].handler))
  {
    match Lookup(reg, Name(t))
    case Ok(h) => Ok(Resolved(t, h))
    case Err(e) => Err(e)
  }

  /** `_read`: an explicit file type goes straight to the registry; otherwise the
      detected type is used when it is a registry key; otherwise the first table group
      matching the path (line 117, where the file type is always None); otherwise
      UnrecognizedFileTypeError. Only UnrecognizedFileTypeError from detection is
      caught, so a ReaderError for a detected type is not retried by path. */
  function Read<H>(reg: Registry<H>, path: string, data: seq<bv8>, gunzipped: seq<bv8>,
                   filetype: Option<string>): (r: Result<Resolved<H>>)
    ensures r.Ok? ==> r.value.tag in reg && reg[r.value.tag] == Available(r.value.handler)
    ensures r.Ok? && filetype.Some? ==> Name(r.value.tag) == filetype.value
  {
    match filetype
    case Some(key) =>
      (match Lookup(reg, key)
       case Ok(h) => Ok(Resolved(TagOf(key).value, h))
       case Err(e) => Err(e))
    case None =>
      var detected := Detect(data, gunzipped);
      if detected.Ok? && detected.value in reg then Open(reg, detected.value)
      else ReadByPath(reg, path, filetype)
  }

  /** The loop on lines 116-118 and the raise on line 120. */
  function ReadByPath<H>(reg: Registry<H>, path: string, filetype: Option<string>): (r: Result<Resolved<H>>)
    ensures r.Ok? ==> exists i :: 0 <= i < |KnownExtensions| && GroupMatches(KnownExtensions[i], path, filetype)
                                  && KnownExtensions[i].tag == r.value.tag
    ensures r == Err(UnrecognizedFileType)
            <==> forall i :: 0 <= i < |KnownExtensions| ==> !GroupMatches(KnownExtensions[i], path, filetype)
    ensures forall i :: 0 <= i < |KnownExtensions| && GroupMatches(KnownExtensions[i], path, filetype)
                        && (forall j :: 0 <= j < i ==> !GroupMatches(KnownExtensions[j], path, filetype))
                        ==> r == Open(reg, KnownExtensions[i].tag)
  {
    match FirstGroup(KnownExtensions, path, filetype)
    case Some(t) => Open(reg, t)
    case None => Err(UnrecognizedFileType)
  }

  /** The file type `write_file` resolves: the path's suffix for "auto", else as given. */
  function WriteFiletype(path: string, filetype: string): string
  {
    if filetype == "auto" then AutoFiletype(path) else filetype
  }

  /** `write_file`: exact, case-sensitive membership of the file type in a table group;
      no content is read. A miss raises ValueError naming the file type. */
  function Write<H>(reg: Registry<H>, path: string, filetype: string): (r: Result<Resolved<H>>)
    ensures var ft := WriteFiletype(path, filetype);
            r.Ok? ==> exists i :: 0 <= i < |KnownExtensions| && ft in KnownExtensions[i].suffixes
                                  && KnownExtensions[i].tag == r.value.tag
    ensures var ft := WriteFiletype(path, filetype);
            (forall i :: 0 <= i < |KnownExtensions| ==> ft !in KnownExtensions[i].suffixes)
            <==> r == Err(UnsupportedFiletype(ft))
  {
    var ft := WriteFiletype(path, filetype);
    match GroupOf(KnownExtensions, ft)
    case Some(t) => Open(reg, t)
    case None => Err(UnsupportedFiletype(ft))
  }

  // ---------------------------------------------------------------------------
  // Reading

  /** An explicit file type is looked up as a registry key and nothing else: the
      content and the path play no part, and the read succeeds exactly when the key
      names an available reader. */
  lemma ReadOverrideIsKeyLookup<H>(reg: Registry<H>, key: string, path: string, data: seq<bv8>,
                                   gunzipped: seq<bv8>)
    ensures Read(reg, path, data, gunzipped, Some(key)) == Read(reg, "", [], [], Some(key))
    ensures Read(reg, path, data, gunzipped, Some(key)).Ok?
            <==> exists t :: t in reg && Name(t) == key && reg[t].Available?
    ensures forall t :: t in reg && Name(t) == key && reg[t].Available?
                        ==> Read(reg, path, data, gunzipped, Some(key)) == Ok(Resolved(t, reg[t].handler))
    ensures forall t :: t in reg && Name(t) == key && reg[t].Unavailable?
                        ==> Read(reg, path, data, gunzipped, Some(key)) == Err(ReaderUnavailable(key))
    ensures (forall t :: t in reg ==> Name(t) != key)
            ==> Read(reg, path, data, gunzipped, Some(key)) == Err(KeyNotFound(key))
  {
    var r := Read(reg, path, data, gunzipped, Some(key));
    if r.Ok? {
      var t := TagOf(key).value;
      assert t in reg && Name(t) == key;
    }
  }

  /** Extension strings that are not reader names ("fts", "j2k", "jpc", "jpt", "fz", "f0")
      are not registry keys: passing one as the file type raises KeyError. */
  lemma ReadExtensionOverrideFails<H>(fits: Entry<H>, jp2: Entry<H>, ana: Entry<H>, key: string, i: int,
                                      path: string, data: seq<bv8>, gunzipped: seq<bv8>)
    requires InGroup(key, i) && key != "fits" && key != "jp2"
    ensures Read(Configured(fits, jp2, ana), path, data, gunzipped, Some(key)) == Err(KeyNotFound(key))
  {
    assert key in KnownExtensions[0].suffixes + KnownExtensions[1].suffixes + KnownExtensions[2].suffixes;
  }

  /** A detected type that is a registry key is used, whatever the path; if its reader is
      unavailable the ReaderError propagates and the path is not consulted. */
  lemma ReadUsesDetectedReader<H>(reg: Registry<H>, path: string, data: seq<bv8>, gunzipped: seq<bv8>, t: Tag)
    requires Detect(data, gunzipped) == Ok(t) && t in reg
    ensures reg[t].Available? ==> Read(reg, path, data, gunzipped, None) == Ok(Resolved(t, reg[t].handler))
    ensures reg[t].Unavailable? ==> Read(reg, path, data, gunzipped, None) == Err(ReaderUnavailable(Name(t)))
  {
  }

  /** When detection fails, or yields a type that is not a registry key, the path alone
      decides: a success comes from a group whose suffix ends the path, and the read is
      unrecognised exactly when no suffix of the table ends the path. */
  lemma ReadFallsBackToPath<H>(reg: Registry<H>, path: string, data: seq<bv8>, gunzipped: seq<bv8>)
    requires Detect(data, gunzipped).Err? || Detect(data, gunzipped).value !in reg
    ensures var r := Read(reg, path, data, gunzipped, None);
            r.Ok? ==> exists i :: 0 <= i < |KnownExtensions| && EndsWithAny(path, KnownExtensions[i].suffixes)
                                   && KnownExtensions[i].tag == r.value.tag
    ensures Read(reg, path, data, gunzipped, None) == Err(UnrecognizedFileType)
            <==> forall i :: 0 <= i < |KnownExtensions| ==> !EndsWithAny(path, KnownExtensions[i].suffixes)
  {
  }

  /** When detection fails, or yields a type that is not a registry key, a path ending
      in a suffix of a group is read with that group's reader: a success when its entry
      is available, ReaderError when it is not, KeyError when the tag is not a key. */
  lemma ReadFallbackUsesGroup<H>(reg: Registry<H>, path: string, data: seq<bv8>, gunzipped: seq<bv8>, i: int)
    requires Detect(data, gunzipped).Err? || Detect(data, gunzipped).value !in reg
    requires 0 <= i < |KnownExtensions| && EndsWithAny(path, KnownExtensions[i].suffixes)
    ensures Read(reg, path, data, gunzipped, None) == Open(reg, KnownExtensions[i].tag)
  {
    var g := FirstGroup(KnownExtensions, path, None);
    var j :| 0 <= j < |KnownExtensions| && GroupMatches(KnownExtensions[j], path, None)
             && KnownExtensions[j].tag == g.value;
    PathMatchesOneGroup(path, i, j);
  }

  /** With the configured registry, `asdf`, `hdf5` and `cdf` streams have no reader:
      they are read by path exactly like streams nothing was detected in. */
  lemma SniffOnlyTagsFallBack<H>(fits: Entry<H>, jp2: Entry<H>, ana: Entry<H>, path: string,
                                 data: seq<bv8>, gunzipped: seq<bv8>)
    requires Detect(data, gunzipped) in {Ok(Asdf), Ok(Hdf5), Ok(Cdf)}
    ensures Read(Configured(fits, jp2, ana), path, data, gunzipped, None)
            == Read(Configured(fits, jp2, ana), path, [], [], None)
  {
    TruncatedMagicUnrecognized([], [], AsdfMarker);
  }

  /** With the configured registry and no explicit file type, the read is unrecognised
      exactly when detection gives neither `fits` nor `jp2` and no suffix of the table
      ends the path; and it never raises KeyError. */
  lemma ConfiguredReadUnrecognized<H>(fits: Entry<H>, jp2: Entry<H>, ana: Entry<H>, path: string,
                                      data: seq<bv8>, gunzipped: seq<bv8>)
    ensures var r := Read(Configured(fits, jp2, ana), path, data, gunzipped, None);
            r == Err(UnrecognizedFileType)
            <==> Detect(data, gunzipped) != Ok(Fits) && Detect(data, gunzipped) != Ok(Jp2)
                 && forall i :: 0 <= i < |KnownExtensions| ==> !EndsWithAny(path, KnownExtensions[i].suffixes)
    ensures Read(Configured(fits, jp2, ana), path, data, gunzipped, None).Err? ==>
            !Read(Configured(fits, jp2, ana), path, data, gunzipped, None).error.KeyNotFound?
  {
    var reg := Configured(fits, jp2, ana);
    var d := Detect(data, gunzipped);
    if d.Err? || d.value !in reg {
      var g := FirstGroup(KnownExtensions, path, None);
      if g.Some? {
        assert g.value in reg;
      }
    }
  }

  /** An empty stream named `image.j2k` is read with the JPEG 2000 reader. */
  lemma EmptyJ2kReadByExtension<H>(fits: Entry<H>, h: H, ana: Entry<H>, gunzipped: seq<bv8>)
    ensures Read(Configured(fits, Available(h), ana), "image.j2k", [], gunzipped, None) == Ok(Resolved(Jp2, h))
  {
    var reg := Configured(fits, Available(h), ana);
    TruncatedMagicUnrecognized([], gunzipped, AsdfMarker);
    assert EndsWith("image.j2k", KnownExtensions[1].suffixes[1]);
    ReadFallbackUsesGroup(reg, "image.j2k", [], gunzipped, 1);
  }

  // ---------------------------------------------------------------------------
  // Writing

  /** Exact membership finds the one group holding a suffix. */
  lemma GroupOfSuffix(ext: string, i: int)
    requires InGroup(ext, i)
    ensures GroupOf(KnownExtensions, ext) == Some(KnownExtensions[i].tag)
  {
    var t := GroupOf(KnownExtensions, ext);
    var j :| 0 <= j < |KnownExtensions| && ext in KnownExtensions[j].suffixes && KnownExtensions[j].tag == t.value;
    SuffixInOneGroup(ext, i, j);
  }

  /** Each suffix of the table, given as the file type, selects its group's reader
      whatever the destination path. */
  lemma WriteExplicitSuffix<H>(reg: Registry<H>, path: string, ext: string, i: int)
    requires InGroup(ext, i)
    ensures Write(reg, path, ext) == Open(reg, KnownExtensions[i].tag)
  {
    GroupOfSuffix(ext, i);
    assert ext != "auto";
  }

  /** With "auto", a destination named stem.ext is written by the group holding ext, and
      reading a file of that name by its path selects the same group. */
  lemma WriteAutoAgreesWithRead<H>(reg: Registry<H>, stem: string, ext: string, i: int)
    requires stem != [] && stem[|stem| - 1] != '/'
    requires InGroup(ext, i)
    ensures Write(reg, stem + "." + ext, "auto") == Open(reg, KnownExtensions[i].tag)
    ensures FirstGroup(KnownExtensions, stem + "." + ext, None) == Some(KnownExtensions[i].tag)
  {
    SuffixShape(ext, i);
    AutoFiletypeOfName(stem, ext);
    GroupOfSuffix(ext, i);
    PathFallbackOfName(stem + "." + ext, ext, i);
  }

  /** Table suffixes hold neither a dot nor a slash, and none is "auto". */
  lemma SuffixShape(ext: string, i: int)
    requires InGroup(ext, i)
    ensures ext != [] && '.' !in ext && '/' !in ext && ext != "auto"
  {
    assert ext in KnownExtensions[0].suffixes + KnownExtensions[1].suffixes + KnownExtensions[2].suffixes;
  }

  /** A path ending in a table suffix falls back to that suffix's group. */
  lemma PathFallbackOfName(path: string, ext: string, i: int)
    requires InGroup(ext, i) && EndsWith(path, "." + ext)
    ensures FirstGroup(KnownExtensions, path, None) == Some(KnownExtensions[i].tag)
  {
    assert path[|path| - |ext|..] == ("." + ext)[1..] == ext;
    var k :| 0 <= k < |KnownExtensions[i].suffixes| && KnownExtensions[i].suffixes[k] == ext;
    assert EndsWith(path, KnownExtensions[i].suffixes[k]);
    var g := FirstGroup(KnownExtensions, path, None);
    var j :| 0 <= j < |KnownExtensions| && GroupMatches(KnownExtensions[j], path, None)
             && KnownExtensions[j].tag == g.value;
    PathMatchesOneGroup(path, i, j);
  }

  /** A file type that is in no group. */
  lemma NotInTable(ft: string)
    requires ft !in ["fts", "fits", "jp2", "j2k", "jpc", "jpt", "fz", "f0"]
    ensures GroupOf(KnownExtensions, ft) == None
  {
    assert KnownExtensions[0].suffixes + KnownExtensions[1].suffixes + KnownExtensions[2].suffixes
        == ["fts", "fits", "jp2", "j2k", "jpc", "jpt", "fz", "f0"];
  }

  /** Resolution is exact and case-sensitive: "FITS" is not "fits". */
  lemma WriteRejectsUpperCase<H>(reg: Registry<H>, path: string)
    ensures Write(reg, path, "FITS") == Err(UnsupportedFiletype("FITS"))
  {
    NotInTable("FITS");
  }

  /** Under "auto" a path without a suffix gives the empty file type, which is rejected. */
  lemma WriteRejectsNoSuffix<H>(reg: Registry<H>, path: string)
    requires AutoFiletype(path) == ""
    ensures Write(reg, path, "auto") == Err(UnsupportedFiletype(""))
  {
    NotInTable("");
  }

  /** A suffix outside the table raises ValueError naming it. */
  lemma WriteRejectsUnknownSuffix<H>(reg: Registry<H>)
    ensures Write(reg, "out.xyz", "auto") == Err(UnsupportedFiletype("xyz"))
  {
    var ext := "xyz";
    assert '.' !in ext && '/' !in ext;
    assert "out.xyz" == "out" + "." + ext;
    AutoFiletypeOfName("out", ext);
    NotInTable(ext);
  }
}

=== FILE: extensions.dfy ===
/** `_KNOWN_EXTENSIONS`: groups of file-name suffixes, each mapped to one reader tag,
    and the two ways the code matches against it: `path.endswith(group)` in the read
    fallback and exact `filetype in group` membership in `write_file`. */
module Extensions {
  import opened Outcomes
  import opened Tags

  datatype Group = Group(suffixes: seq<string>, tag: Tag)

  /** The table in its dictionary order. */
  const KnownExtensions: seq<Group> := [
    Group(["fts", "fits"], Fits),
    Group(["jp2", "j2k", "jpc", "jpt"], Jp2),
    Group(["fz", "f0"], Ana)
  ]

  /** `p.endswith(s)` for strings. No dot is implied: "myfits" ends with "fits". */
  predicate EndsWith(p: string, s: string)
  {
    |s| <= |p| && p[|p| - |s|..] == s
  }

  /** `p.endswith(suffixes)` for a tuple: some member ends the string. */
  predicate EndsWithAny(p: string, suffixes: seq<string>)
  {
    exists i :: 0 <= i < |suffixes| && EndsWith(p, suffixes[i])
  }

  /** The condition on line 117 of `_read`: the path ends with one of the group's
      suffixes, or the override token is one of them (Python's `None in t` is false). */
  predicate GroupMatches(g: Group, path: string, token: Option<string>)
  {
    EndsWithAny(path, g.suffixes) || (token.Some? && token.value in g.suffixes)
  }

  /** The loop over the table in `_read`: the tag of the first matching group. */
  function FirstGroup(groups: seq<Group>, path: string, token: Option<string>): (r: Option<Tag>)
    ensures r.None? <==> forall i :: 0 <= i < |groups| ==> !GroupMatches(groups[i], path, token)
    ensures r.Some? ==> exists i :: 0 <= i < |groups| && GroupMatches(groups[i], path, token)
                                    && groups[i].tag == r.value
                                    && forall j :: 0 <= j < i ==> !GroupMatches(groups[j], path, token)
  {
    if |groups| == 0 then None
    else if GroupMatches(groups[0], path, token) then Some(groups[0].tag)
    else
      var r := FirstGroup(groups[1..], path, token);
      assert forall i :: 1 <= i < |groups| ==> groups[1..][i - 1] == groups[i];
      r
  }

  /** The loop over the table in `write_file`: the tag of the first group that holds
      the file type as one of its members, compared exactly. */
  function GroupOf(groups: seq<Group>, filetype: string): (r: Option<Tag>)
    ensures r.None? <==> forall i :: 0 <= i < |groups| ==> filetype !in groups[i].suffixes
    ensures r.Some? ==> exists i :: 0 <= i < |groups| && filetype in groups[i].suffixes
                                    && groups[i].tag == r.value
  {
    if |groups| == 0 then None
    else if filetype in groups[0].suffixes then Some(groups[0].tag)
    else
      var r := GroupOf(groups[1..], filetype);
      assert forall i :: 1 <= i < |groups| ==> groups[1..][i - 1] == groups[i];
      r
  }

  // ---------------------------------------------------------------------------
  // The table has no overlaps

  /** Two suffixes of the same string: the shorter one ends the longer one. */
  lemma EndsWithBoth(p: string, a: string, b: string)
    requires EndsWith(p, a) && EndsWith(p, b) && |b| <= |a|
    ensures EndsWith(a, b)
  {
    assert a[|a| - |b|..] == p[|p| - |b|..];
  }

  /** Every suffix of the table, with the index of its group. */
  predicate InGroup(s: string, i: int)
  {
    0 <= i < |KnownExtensions| && s in KnownExtensions[i].suffixes
  }

  /** The group a suffix's last character points to: the groups' suffixes end in
      disjoint sets of characters. */
  function GroupOfLastChar(c: char): int
  {
    if c == 's' then 0
    else if c == '2' || c == 'k' || c == 'c' || c == 't' then 1
    else if c == 'z' || c == '0' then 2
    else -1
  }

  lemma SuffixLastChar(s: string, i: int)
    requires InGroup(s, i)
    ensures |s| > 0 && GroupOfLastChar(s[|s| - 1]) == i
  {
    if i == 0 {
      assert s == "fts" || s == "fits";
    } else if i == 1 {
      assert s == "jp2" || s == "j2k" || s == "jpc" || s == "jpt";
    } else {
      assert s == "fz" || s == "f0";
    }
  }

  lemma EndsWithLast(a: string, b: string)
    ensures EndsWith(a, b) && |b| > 0 ==> a[|a| - 1] == b[|b| - 1]
  {
    if EndsWith(a, b) && |b| > 0 {
      assert a[|a| - |b|..][|b| - 1] == a[|a| - 1];
    }
  }

  /** No suffix of one group ends a suffix of another group. (In particular no suffix
      string is in two groups; "fts" and "fits" do not end one another either.) */
  lemma SuffixesDoNotNest(a: string, i: int, b: string, j: int)
    requires InGroup(a, i) && InGroup(b, j) && i != j
    ensures !EndsWith(a, b)
  {
    SuffixLastChar(a, i);
    SuffixLastChar(b, j);
    EndsWithLast(a, b);
  }

  /** Every suffix string belongs to exactly one group. */
  lemma SuffixInOneGroup(s: string, i: int, j: int)
    requires InGroup(s, i) && InGroup(s, j)
    ensures i == j
  {
    if i != j {
      SuffixesDoNotNest(s, i, s, j);
    }
  }

  /** No path ends with suffixes of two different groups. */
  lemma PathMatchesOneGroup(path: string, i: int, j: int)
    requires 0 <= i < |KnownExtensions| && 0 <= j < |KnownExtensions|
    requires EndsWithAny(path, KnownExtensions[i].suffixes)
    requires EndsWithAny(path, KnownExtensions[j].suffixes)
    ensures i == j
  {
    var si :| 0 <= si < |KnownExtensions[i].suffixes| && EndsWith(path, KnownExtensions[i].suffixes[si]);
    var sj :| 0 <= sj < |KnownExtensions[j].suffixes| && EndsWith(path, KnownExtensions[j].suffixes[sj]);
    var a, b := KnownExtensions[i].suffixes[si], KnownExtensions[j].suffixes[sj];
    if i != j {
      if |b| <= |a| {
        EndsWithBoth(path, a, b);
        SuffixesDoNotNest(a, i, b, j);
      } else {
        EndsWithBoth(path, b, a);
        SuffixesDoNotNest(b, j, a, i);
      }
    }
  }

  /** The path fallback of `_read` gives the same answer whatever order the table is
      walked in: any listing of the same groups finds the same tag. */
  lemma {:induction false} FallbackOrderIndependent(order: seq<Group>, path: string)
    requires forall g :: g in order <==> g in KnownExtensions
    ensures FirstGroup(order, path, None) == FirstGroup(KnownExtensions, path, None)
  {
    var r1 := FirstGroup(order, path, None);
    var r2 := FirstGroup(KnownExtensions, path, None);
    if r1.Some? {
      var i :| 0 <= i < |order| && GroupMatches(order[i], path, None) && order[i].tag == r1.value;
      assert order[i] in KnownExtensions;
      var i' :| 0 <= i' < |KnownExtensions| && KnownExtensions[i'] == order[i];
      var j :| 0 <= j < |KnownExtensions| && GroupMatches(KnownExtensions[j], path, None)
               && KnownExtensions[j].tag == r2.value;
      PathMatchesOneGroup(path, i', j);
    } else {
      forall j | 0 <= j < |KnownExtensions|
        ensures !GroupMatches(KnownExtensions[j], path, None)
      {
        assert KnownExtensions[j] in order;
      }
    }
  }

  // ---------------------------------------------------------------------------
  // The file type `write_file` derives from a path

  /** `s.rfind(c)`: the index of the last c, or -1. */
  function LastIndexOf(s: string, c: char): (i: int)
    ensures -1 <= i < |s|
    ensures 0 <= i ==> s[i] == c
    ensures forall j :: i < j < |s| ==> s[j] != c
  {
    if |s| == 0 then -1
    else if s[|s| - 1] == c then |s| - 1
    else LastIndexOf(s[..|s| - 1], c)
  }

  /** The final path component: everything after the last '/'. */
  function FinalComponent(path: string): (name: string)
    ensures '/' !in name
    ensures EndsWith(path, name)
  {
    path[LastIndexOf(path, '/') + 1..]
  }

  /** `pathlib.Path(path).suffix[1:]`: the final component's text after its last dot,
      provided the dot is neither the component's first nor its last character;
      otherwise the empty string. */
  function AutoFiletype(path: string): (ft: string)
    ensures '.' !in ft && '/' !in ft
    ensures ft != [] ==> EndsWith(path, "." + ft)
  {
    var name := FinalComponent(path);
    var i := LastIndexOf(name, '.');
    if 0 < i < |name| - 1 then
      assert name[i..] == "." + name[i + 1..];
      name[i + 1..]
    else []
  }

  /** Appending text without c does not move the last c. */
  lemma LastIndexOfAppend(a: string, b: string, c: char)
    requires c !in b
    ensures LastIndexOf(a + b, c) == LastIndexOf(a, c)
  {
    var i' := LastIndexOf(a, c);
    if 0 <= i' {
      assert (a + b)[i'] == c;
    }
  }

  /** Text without '/' appended to a stem that does not end in '/' stays in the final
      component, behind a non-empty part of the stem. */
  lemma FinalComponentAppend(stem: string, tail: string)
    requires stem != [] && stem[|stem| - 1] != '/' && '/' !in tail
    ensures var base := stem[LastIndexOf(stem, '/') + 1..];
            base != [] && FinalComponent(stem + tail) == base + tail
  {
    LastIndexOfAppend(stem, tail, '/');
    var k := LastIndexOf(stem, '/');
    assert (stem + tail)[k + 1..] == stem[k + 1..] + tail;
  }

  /** A final component made of a non-empty base, a dot and a non-empty dot-free
      extension gives back that extension. */
  lemma AutoFiletypeOfComponent(path: string, base: string, ext: string)
    requires base != [] && ext != [] && '.' !in ext
    requires FinalComponent(path) == base + "." + ext
    ensures AutoFiletype(path) == ext
  {
    var name := base + "." + ext;
    LastIndexOfAppend(base + ".", ext, '.');
    assert LastIndexOf(base + ".", '.') == |base|;
    assert name[|base| + 1..] == ext;
  }

  /** A name made of a non-empty stem, a dot and a dot-free extension gives back
      that extension. */
  lemma AutoFiletypeOfName(stem: string, ext: string)
    requires stem != [] && stem[|stem| - 1] != '/'
    requires ext != [] && '.' !in ext && '/' !in ext
    ensures AutoFiletype(stem + "." + ext) == ext
  {
    var tail := "." + ext;
    assert stem + "." + ext == stem + tail;
    FinalComponentAppend(stem, tail);
    var base := stem[LastIndexOf(stem, '/') + 1..];
    assert base + tail == base + "." + ext;
    AutoFiletypeOfComponent(stem + tail, base, ext);
  }
}

=== FILE: outcomes.dfy ===
/** Python's "value or None" and "return or raise", written as values. */
module Outcomes {

  /** An optional value; `None` plays the role of Python's `None`. */
  datatype Option<+T> = None | Some(value: T)

  /** The exceptions the file-type machinery raises. */
  datatype Error =
    | UnrecognizedFileType                  // UnrecognizedFileTypeError
    | ReaderUnavailable(key: string)        // ReaderError: the reader is registered as None
    | KeyNotFound(key: string)              // KeyError: the key is not in the reader registry
    | UnsupportedFiletype(filetype: string) // ValueError raised by write_file

  /** A returned value or a raised error. */
  datatype Result<+T> = Ok(value: T) | Err(error: Error)
}

=== FILE: probes.dfy ===
/** The byte probes the detector takes from a stream: bounded reads from the start,
    `readline()`, and `bytes.hex()`. A stream is modelled by its whole content. */
module Probes {

  const Newline: bv8 := 0x0A

  /** `fp.seek(0); fp.read(n)`: the first n bytes, or all of them when fewer. */
  function Take(s: seq<bv8>, n: nat): (p: seq<bv8>)
    ensures p <= s
    ensures |p| == if |s| < n then |s| else n
  {
    if |s| <= n then s else s[..n]
  }

  /** `fp.readline()` on a binary stream: the bytes up to and including the first
      newline, or everything when there is none. */
  function ReadLine(s: seq<bv8>): (line: seq<bv8>)
    ensures line <= s
    ensures forall i :: 0 <= i < |line| - 1 ==> line[i] != Newline
    ensures |line| < |s| ==> 0 < |line| && line[|line| - 1] == Newline
    ensures |s| > 0 ==> |line| > 0
  {
    if |s| == 0 then []
    else if s[0] == Newline then [s[0]]
    else [s[0]] + ReadLine(s[1..])
  }

  /** Two successive `readline()` calls from the start, concatenated. */
  function FirstTwoLines(s: seq<bv8>): (r: seq<bv8>)
    ensures r <= s
  {
    var line1 := ReadLine(s);
    var line2 := ReadLine(s[|line1|..]);
    assert line1 + line2 == s[..|line1| + |line2|];
    line1 + line2
  }

  /** A lower-case hexadecimal digit for 0 <= n < 16. */
  function HexDigit(n: int): (c: char)
    requires 0 <= n < 16
    ensures ('0' <= c <= '9') || ('a' <= c <= 'f')
  {
    if n < 10 then (48 + n) as char else (87 + n) as char
  }

  function HexByte(b: bv8): string
  {
    [HexDigit(b as int / 16), HexDigit(b as int % 16)]
  }

  /** `bytes.hex()`: two lower-case hexadecimal digits per byte. */
  function Hex(bs: seq<bv8>): (h: string)
    ensures |h| == 2 * |bs|
  {
    if |bs| == 0 then "" else HexByte(bs[0]) + Hex(bs[1..])
  }

  lemma HexDigitInjective(m: int, n: int)
    requires 0 <= m < 16 && 0 <= n < 16
    ensures HexDigit(m) == HexDigit(n) ==> m == n
  {
  }

  lemma HexByteInjective(a: bv8, b: bv8)
    ensures HexByte(a) == HexByte(b) ==> a == b
  {
    if HexByte(a) == HexByte(b) {
      HexDigitInjective(a as int / 16, b as int / 16);
      HexDigitInjective(a as int % 16, b as int % 16);
      assert a as int == b as int;
    }
  }

  /** The hexadecimal rendering loses nothing: equal renderings come from equal bytes. */
  lemma {:induction false} HexInjective(a: seq<bv8>, b: seq<bv8>)
    ensures Hex(a) == Hex(b) ==> a == b
  {
    if Hex(a) == Hex(b) && |a| > 0 {
      assert |b| == |a|;
      var ha, hb := Hex(a), Hex(b);
      assert HexByte(a[0]) == ha[..2] == hb[..2] == HexByte(b[0]);
      HexByteInjective(a[0], b[0]);
      assert Hex(a[1..]) == ha[2..] == hb[2..] == Hex(b[1..]);
      HexInjective(a[1..], b[1..]);
      assert a == [a[0]] + a[1..];
      assert b == [b[0]] + b[1..];
    }
  }
}

=== FILE: readers.dfy ===
/** `_READERS`: the reader registry. A key maps to a handler, or to `None` when the
    optional reader module failed to import. The handlers themselves are opaque. */
module Readers {
  import opened Outcomes
  import opened Tags

  /** A registry value: a handler, or the `None` left by a failed import. */
  datatype Entry<+H> = Available(handler: H) | Unavailable

  type Registry<H> = map<Tag, Entry<H>>

  /** The registry the module builds at import time: one entry per reader module,
      keyed "fits", "jp2" and "ana". */
  function Configured<H>(fits: Entry<H>, jp2: Entry<H>, ana: Entry<H>): Registry<H>
  {
    map[Fits := fits, Jp2 := jp2, Ana := ana]
  }

  /** `Readers.__getitem__`: a missing key raises KeyError, a `None` value raises
      ReaderError, a handler is returned unchanged. */
  function Lookup<H>(reg: Registry<H>, key: string): (r: Result<H>)
    ensures forall t :: t in reg && Name(t) == key ==>
              r == (if reg[t].Available? then Ok(reg[t].handler) else Err(ReaderUnavailable(key)))
    ensures (forall t :: t in reg ==> Name(t) != key) ==> r == Err(KeyNotFound(key))
    ensures r.Ok? ==> TagOf(key).Some? && TagOf(key).value in reg
  {
    match TagOf(key)
    case None => Err(KeyNotFound(key))
    case Some(t) =>
      if t !in reg then Err(KeyNotFound(key))
      else match reg[t]
        case Available(h) => Ok(h)
        case Unavailable => Err(ReaderUnavailable(key))
  }

  /** Lookups in the configured registry: "fits", "jp2" and "ana" give their entry's
      handler or ReaderError; every other key, extension strings included, is a KeyError. */
  lemma ConfiguredLookup<H>(fits: Entry<H>, jp2: Entry<H>, ana: Entry<H>, key: string)
    ensures var reg := Configured(fits, jp2, ana);
            var entry := if key == "fits" then fits else if key == "jp2" then jp2 else ana;
            Lookup(reg, key)
            == if key !in {"fits", "jp2", "ana"} then Err(KeyNotFound(key))
               else if entry.Available? then Ok(entry.handler)
               else Err(ReaderUnavailable(key))
  {
  }
}

=== FILE: signatures.dfy ===
/** `detect_filetype`: a fixed, ordered list of content checks on the start of a stream.

    `Detect` follows the code: it takes the probes the code takes (two `readline()` calls,
    80, 8 and 4 leading bytes, the hex rendering of the last) and applies the regular
    expression, the line comparison and the hex comparison. `Classify` states the same
    decision as plain prefix tests; `DetectIsClassify` proves the two agree on every input.

    The gzip branch needs decompression. The model takes `gunzipped`, the bytes the gzip
    decompressor would yield for the same file, as an extra input. */
module Signatures {
  import opened Outcomes
  import opened Tags
  import opened Probes

  const AsdfMarker: seq<bv8> := [0x23, 0x41, 0x53, 0x44, 0x46]  // "#ASDF"

  /** Section 2.3.1 of RFC 1952: ID1, ID2 and CM = 8 (deflate). */
  const GzipMagic: seq<bv8> := [0x1F, 0x8B, 0x08]

  /** The JPEG 2000 signature box (ISO/IEC 15444-1 Annex I) in its two variants. */
  const Jp2Plain: seq<bv8> := [0x00, 0x00, 0x00, 0x0C, 0x6A, 0x50, 0x20, 0x20, 0x0D, 0x0A, 0x87, 0x0A]
  const Jp2Extended: seq<bv8> := [0x00, 0x00, 0x00, 0x0C, 0x6A, 0x50, 0x1A, 0x1A, 0x0D, 0x0A, 0x87, 0x0A]
  const Jp2Signatures: seq<seq<bv8>> := [Jp2Plain, Jp2Extended]

  /** The HDF5 format signature, shared by netCDF-4 files. */
  const Hdf5Magic: seq<bv8> := [0x89, 0x48, 0x44, 0x46, 0x0D, 0x0A, 0x1A, 0x0A]

  /** The CDF magic numbers as the code spells them, and as the bytes they stand for. */
  const CdfMagicHex: seq<string> := ["cdf30001", "cdf26002", "0000ffff"]
  const CdfMagicBytes: seq<seq<bv8>> := [[0xCD, 0xF3, 0x00, 0x01], [0xCD, 0xF2, 0x60, 0x02], [0x00, 0x00, 0xFF, 0xFF]]

  /** The tags content detection can produce. */
  const SniffedTags: set<Tag> := {Asdf, Fits, Jp2, Hdf5, Cdf}

  const Space: bv8 := 0x20
  const EqualsSign: bv8 := 0x3D

  /** A byte of the class `[A-Z0-9_]`. */
  predicate IsKeywordByte(b: bv8)
  {
    (0x41 <= b <= 0x5A) || (0x30 <= b <= 0x39) || b == 0x5F
  }

  // ---------------------------------------------------------------------------
  // The FITS keyword-card test

  /** The pattern `[A-Z0-9_]{k} {j}=` occupies the first k + j + 1 bytes of s. */
  predicate CardShapeAt(s: seq<bv8>, k: nat, j: nat)
  {
    && k + j < |s|
    && (forall i :: 0 <= i < k ==> IsKeywordByte(s[i]))
    && (forall i :: k <= i < k + j ==> s[i] == Space)
    && s[k + j] == EqualsSign
  }

  /** `re.match(rb"[A-Z0-9_]{0,8} *=", s) is not None`: some way of reading the pattern
      matches a prefix of s. */
  predicate KeywordCardMatch(s: seq<bv8>)
  {
    exists k: nat, j: nat :: k <= 8 && j < |s| && CardShapeAt(s, k, j)
  }

  /** The length of the longest prefix of keyword bytes. */
  function KeywordRun(s: seq<bv8>): (n: nat)
    ensures n <= |s|
    ensures forall i :: 0 <= i < n ==> IsKeywordByte(s[i])
    ensures n < |s| ==> !IsKeywordByte(s[n])
  {
    if |s| == 0 || !IsKeywordByte(s[0]) then 0 else 1 + KeywordRun(s[1..])
  }

  /** The length of the longest prefix of spaces. */
  function SpaceRun(s: seq<bv8>): (n: nat)
    ensures n <= |s|
    ensures forall i :: 0 <= i < n ==> s[i] == Space
    ensures n < |s| ==> s[n] != Space
  {
    if |s| == 0 || s[0] != Space then 0 else 1 + SpaceRun(s[1..])
  }

  /** The simpler predicate: the maximal run of keyword bytes has at most 8 bytes and is
      followed by the maximal run of spaces and then by `=`. The run may be empty. */
  predicate FitsCard(s: seq<bv8>)
  {
    var n := KeywordRun(s);
    var m := n + SpaceRun(s[n..]);
    n <= 8 && m < |s| && s[m] == EqualsSign
  }

  /** The regular expression matches exactly when the simpler predicate holds. */
  lemma KeywordCardMatchIffFitsCard(s: seq<bv8>)
    ensures KeywordCardMatch(s) <==> FitsCard(s)
  {
    var n := KeywordRun(s);
    var sp := SpaceRun(s[n..]);
    if FitsCard(s) {
      assert CardShapeAt(s, n, sp);
    }
    if KeywordCardMatch(s) {
      var k: nat, j: nat :| k <= 8 && j < |s| && CardShapeAt(s, k, j);
      // s[k] is a space or `=`, neither a keyword byte, so the keyword run stops at k
      assert !IsKeywordByte(s[k]);
      assert n == k;
      // likewise the space run stops exactly at the `=`
      assert sp == j;
    }
  }

  /** A byte that is neither a keyword byte, a space nor `=` cannot start a FITS card. */
  lemma NoCardFrom(s: seq<bv8>)
    requires |s| > 0 && !IsKeywordByte(s[0]) && s[0] != Space && s[0] != EqualsSign
    ensures !FitsCard(s)
  {
    assert KeywordRun(s) == 0;
    assert SpaceRun(s) == 0;
  }

  // ---------------------------------------------------------------------------
  // The JPEG 2000 line test

  /** Two `readline()` calls give one of the JPEG 2000 signatures exactly when the
      stream starts with that signature. */
  lemma FirstTwoLinesIsSignature(s: seq<bv8>, sig: seq<bv8>)
    requires sig in Jp2Signatures
    ensures FirstTwoLines(s) == sig <==> sig <= s
  {
    if sig <= s {
      var line1 := ReadLine(s);
      assert s[9] == Newline;
      assert |line1| == 10;
      var rest := s[10..];
      var line2 := ReadLine(rest);
      assert rest[0] == 0x87 && rest[1] == Newline;
      assert |line2| == 2;
      assert line1 + line2 == s[..12];
    }
  }

  // ---------------------------------------------------------------------------
  // The CDF hex test

  lemma HexOfFour(a: bv8, b: bv8, c: bv8, d: bv8)
    ensures Hex([a, b, c, d]) == HexByte(a) + HexByte(b) + HexByte(c) + HexByte(d)
  {
    HexCons(a, [b, c, d]);
    HexCons(b, [c, d]);
    HexCons(c, [d]);
    HexCons(d, []);
  }

  lemma HexCons(b: bv8, rest: seq<bv8>)
    ensures Hex([b] + rest) == HexByte(b) + Hex(rest)
  {
    assert ([b] + rest)[1..] == rest;
  }

  lemma HexByteOf(b: bv8, hi: int, lo: int)
    requires 0 <= hi < 16 && 0 <= lo < 16 && b as int == 16 * hi + lo
    ensures HexByte(b) == [HexDigit(hi), HexDigit(lo)]
  {
  }

  lemma SpellCdf30001()
    ensures Hex([0xCD, 0xF3, 0x00, 0x01]) == "cdf30001"
  {
    HexOfFour(0xCD, 0xF3, 0x00, 0x01);
    HexByteOf(0xCD, 12, 13);
    HexByteOf(0xF3, 15, 3);
    HexByteOf(0x00, 0, 0);
    HexByteOf(0x01, 0, 1);
  }

  lemma SpellCdf26002()
    ensures Hex([0xCD, 0xF2, 0x60, 0x02]) == "cdf26002"
  {
    HexOfFour(0xCD, 0xF2, 0x60, 0x02);
    HexByteOf(0xCD, 12, 13);
    HexByteOf(0xF2, 15, 2);
    HexByteOf(0x60, 6, 0);
    HexByteOf(0x02, 0, 2);
  }

  lemma Spell0000ffff()
    ensures Hex([0x00, 0x00, 0xFF, 0xFF]) == "0000ffff"
  {
    HexOfFour(0x00, 0x00, 0xFF, 0xFF);
    HexByteOf(0x00, 0, 0);
    HexByteOf(0xFF, 15, 15);
  }

  /** The code's CDF hex strings are the renderings of the CDF magic bytes. */
  lemma CdfMagicSpelling()
    ensures forall i :: 0 <= i < 3 ==> Hex(CdfMagicBytes[i]) == CdfMagicHex[i]
  {
    SpellCdf30001();
    SpellCdf26002();
    Spell0000ffff();
  }

  /** The hex comparison of the code is a comparison of the raw bytes. */
  lemma CdfHexIffBytes(p: seq<bv8>)
    ensures Hex(p) in CdfMagicHex <==> p in CdfMagicBytes
  {
    CdfMagicSpelling();
    HexInjective(p, CdfMagicBytes[0]);
    HexInjective(p, CdfMagicBytes[1]);
    HexInjective(p, CdfMagicBytes[2]);
  }

  // ---------------------------------------------------------------------------
  // The detector

  /** `detect_filetype` as written: the probes, then the checks in the code's order. */
  function Detect(data: seq<bv8>, gunzipped: seq<bv8>): (r: Result<Tag>)
    ensures r.Ok? ==> r.value in SniffedTags
    ensures r.Err? ==> r.error == UnrecognizedFileType
  {
    var lines := FirstTwoLines(data);
    var first80 := Take(data, 80);
    var first8 := Take(data, 8);
    var cdfMagic := Hex(Take(data, 4));
    if AsdfMarker <= first80 then Ok(Asdf)
    else
      var cardProbe := if Take(first80, 3) == GzipMagic then Take(gunzipped, 80) else first80;
      if KeywordCardMatch(cardProbe) then Ok(Fits)
      else if lines in Jp2Signatures then Ok(Jp2)
      else if first8 == Hdf5Magic then Ok(Hdf5)
      else if cdfMagic in CdfMagicHex then Ok(Cdf)
      else Err(UnrecognizedFileType)
  }

  /** The bytes the FITS test looks at: the decompressed prefix for a gzip stream,
      the stream's own prefix otherwise. */
  function CardProbe(data: seq<bv8>, gunzipped: seq<bv8>): seq<bv8>
  {
    if GzipMagic <= data then Take(gunzipped, 80) else Take(data, 80)
  }

  predicate HasCdfMagic(data: seq<bv8>)
  {
    CdfMagicBytes[0] <= data || CdfMagicBytes[1] <= data || CdfMagicBytes[2] <= data
  }

  /** The reference classifier: the same order of checks, each a prefix test. */
  function Classify(data: seq<bv8>, gunzipped: seq<bv8>): Result<Tag>
  {
    if AsdfMarker <= data then Ok(Asdf)
    else if FitsCard(CardProbe(data, gunzipped)) then Ok(Fits)
    else if Jp2Plain <= data || Jp2Extended <= data then Ok(Jp2)
    else if Hdf5Magic <= data then Ok(Hdf5)
    else if HasCdfMagic(data) then Ok(Cdf)
    else Err(UnrecognizedFileType)
  }

  /** Each probe of the code asks the same question as the matching prefix test. */
  lemma ProbesArePrefixTests(data: seq<bv8>, gunzipped: seq<bv8>)
    ensures (AsdfMarker <= Take(data, 80)) == (AsdfMarker <= data)
    ensures (if Take(Take(data, 80), 3) == GzipMagic then Take(gunzipped, 80) else Take(data, 80))
            == CardProbe(data, gunzipped)
    ensures (FirstTwoLines(data) in Jp2Signatures) == (Jp2Plain <= data || Jp2Extended <= data)
    ensures (Take(data, 8) == Hdf5Magic) == (Hdf5Magic <= data)
    ensures (Hex(Take(data, 4)) in CdfMagicHex) == HasCdfMagic(data)
  {
    FixedProbes(data, gunzipped);
    LineProbe(data);
    CdfHexIffBytes(Take(data, 4));
    CdfProbe(data);
  }

  lemma FixedProbes(data: seq<bv8>, gunzipped: seq<bv8>)
    ensures (AsdfMarker <= Take(data, 80)) == (AsdfMarker <= data)
    ensures (if Take(Take(data, 80), 3) == GzipMagic then Take(gunzipped, 80) else Take(data, 80))
            == CardProbe(data, gunzipped)
    ensures (Take(data, 8) == Hdf5Magic) == (Hdf5Magic <= data)
  {
  }

  lemma LineProbe(data: seq<bv8>)
    ensures (FirstTwoLines(data) in Jp2Signatures) == (Jp2Plain <= data || Jp2Extended <= data)
  {
    FirstTwoLinesIsSignature(data, Jp2Plain);
    FirstTwoLinesIsSignature(data, Jp2Extended);
  }

  lemma CdfProbe(data: seq<bv8>)
    ensures (Take(data, 4) in CdfMagicBytes) == HasCdfMagic(data)
  {
    if HasCdfMagic(data) {
      var i :| 0 <= i < 3 && CdfMagicBytes[i] <= data;
      assert Take(data, 4) == CdfMagicBytes[i];
    }
  }

  /** The detector as written decides exactly as the prefix-test classifier. */
  lemma DetectIsClassify(data: seq<bv8>, gunzipped: seq<bv8>)
    ensures Detect(data, gunzipped) == Classify(data, gunzipped)
  {
    ProbesArePrefixTests(data, gunzipped);
    KeywordCardMatchIffFitsCard(CardProbe(data, gunzipped));
  }

  // ---------------------------------------------------------------------------
  // Properties of the detector

  /** The magic numbers compared after the FITS check. */
  const LaterMagics: seq<seq<bv8>> := [Jp2Plain, Jp2Extended, Hdf5Magic] + CdfMagicBytes

  /** No stream starting with a JPEG 2000, HDF5 or CDF magic number passes the FITS test,
      so testing FITS first never misclassifies those formats. */
  lemma MagicsAreNotCards(m: seq<bv8>, rest: seq<bv8>)
    requires m in LaterMagics
    ensures !FitsCard(m + rest)
    ensures !FitsCard(Take(m + rest, 80))
  {
    var s := m + rest;
    assert s[0] == m[0];
    NoCardFrom(s);
    assert Take(s, 80)[0] == m[0];
    NoCardFrom(Take(s, 80));
  }

  /** `#ASDF` is decided before anything else, and only by the stream's own bytes. */
  lemma AsdfComesFirst(data: seq<bv8>, gunzipped: seq<bv8>)
    ensures Detect(data, gunzipped) == Ok(Asdf) <==> AsdfMarker <= data
  {
    DetectIsClassify(data, gunzipped);
  }

  lemma StartsWithMagic(m: seq<bv8>, data: seq<bv8>)
    requires m in LaterMagics && m <= data
    ensures !(AsdfMarker <= data) && !(GzipMagic <= data)
    ensures !FitsCard(CardProbe(data, []))
  {
    assert data[0] == m[0];
    assert data == m + data[|m|..];
    MagicsAreNotCards(m, data[|m|..]);
  }

  /** A stream that starts with a JPEG 2000 signature is `jp2`. */
  lemma Jp2SignatureDetected(data: seq<bv8>, gunzipped: seq<bv8>, sig: seq<bv8>)
    requires sig in Jp2Signatures && sig <= data
    ensures Detect(data, gunzipped) == Ok(Jp2)
  {
    DetectIsClassify(data, gunzipped);
    StartsWithMagic(sig, data);
  }

  /** A stream whose first 8 bytes are the HDF5 signature is `hdf5`. */
  lemma Hdf5SignatureDetected(data: seq<bv8>, gunzipped: seq<bv8>)
    requires Hdf5Magic <= data
    ensures Detect(data, gunzipped) == Ok(Hdf5)
  {
    DetectIsClassify(data, gunzipped);
    StartsWithMagic(Hdf5Magic, data);
    assert data[0] == 0x89;
  }

  /** A stream whose first 4 bytes are a CDF magic number is `cdf`. */
  lemma CdfSignatureDetected(data: seq<bv8>, gunzipped: seq<bv8>, magic: seq<bv8>)
    requires magic in CdfMagicBytes && magic <= data
    ensures Detect(data, gunzipped) == Ok(Cdf)
  {
    StartsWithMagic(magic, data);
    assert HasCdfMagic(data);
    CdfIsNotLongerMagic(data);
    DetectIsClassify(data, gunzipped);
  }

  /** The CDF magic numbers differ from the longer magics in byte 0 or byte 2. */
  lemma CdfIsNotLongerMagic(data: seq<bv8>)
    requires HasCdfMagic(data)
    ensures !(Jp2Plain <= data) && !(Jp2Extended <= data) && !(Hdf5Magic <= data)
  {
    var k := if data[0] == 0xCD then 0 else 2;
    DifferentAt(Jp2Plain, data, k);
    DifferentAt(Jp2Extended, data, k);
    DifferentAt(Hdf5Magic, data, 0);
  }

  lemma DifferentAt(m: seq<bv8>, data: seq<bv8>, k: nat)
    requires k < |m| && k < |data| && m[k] != data[k]
    ensures !(m <= data)
  {
  }

  /** All magic numbers the detector compares against. */
  const AllMagics: seq<seq<bv8>> := [AsdfMarker, GzipMagic] + LaterMagics

  /** Magic numbers that agree on their first three bytes have the same length. */
  lemma MagicHeads(c: seq<bv8>, m: seq<bv8>)
    requires c in AllMagics && m in AllMagics
    ensures |c| >= 3
    ensures c[0] == m[0] && c[1] == m[1] && c[2] == m[2] ==> |c| == |m|
  {
    assert c == AsdfMarker || c == GzipMagic || c == Jp2Plain || c == Jp2Extended || c == Hdf5Magic
      || c == CdfMagicBytes[0] || c == CdfMagicBytes[1] || c == CdfMagicBytes[2];
    assert m == AsdfMarker || m == GzipMagic || m == Jp2Plain || m == Jp2Extended || m == Hdf5Magic
      || m == CdfMagicBytes[0] || m == CdfMagicBytes[1] || m == CdfMagicBytes[2];
  }

  lemma PrefixHead(c: seq<bv8>, m: seq<bv8>)
    ensures c <= m && 3 <= |c| ==> c[0] == m[0] && c[1] == m[1] && c[2] == m[2]
  {
  }

  /** No magic number is a proper prefix of another one. */
  lemma NoMagicNested(c: seq<bv8>, m: seq<bv8>)
    requires c in AllMagics && m in AllMagics
    ensures !(|c| < |m| && c <= m)
  {
    MagicHeads(c, m);
    PrefixHead(c, m);
  }

  /** A proper prefix of a magic number starts with no magic number. */
  lemma TruncatedHasNoMagic(data: seq<bv8>, m: seq<bv8>)
    requires m in AllMagics
    requires |data| < |m| && data <= m
    ensures !(AsdfMarker <= data) && !(GzipMagic <= data)
    ensures !(Jp2Plain <= data) && !(Jp2Extended <= data) && !(Hdf5Magic <= data)
    ensures !HasCdfMagic(data)
  {
    NoMagicNested(AsdfMarker, m);
    NoMagicNested(GzipMagic, m);
    NoMagicNested(Jp2Plain, m);
    NoMagicNested(Jp2Extended, m);
    NoMagicNested(Hdf5Magic, m);
    NoMagicNested(CdfMagicBytes[0], m);
    NoMagicNested(CdfMagicBytes[1], m);
    NoMagicNested(CdfMagicBytes[2], m);
  }

  /** The empty stream, and any stream cut short inside one of the magic numbers other
      than gzip's, matches nothing: detection raises UnrecognizedFileTypeError. */
  lemma TruncatedMagicUnrecognized(data: seq<bv8>, gunzipped: seq<bv8>, m: seq<bv8>)
    requires m in AllMagics && m != GzipMagic
    requires |data| < |m| && data <= m
    ensures Detect(data, gunzipped) == Err(UnrecognizedFileType)
  {
    TruncatedHasNoMagic(data, m);
    assert !FitsCard(CardProbe(data, gunzipped)) by {
      if |data| > 0 {
        assert data[0] == m[0];
        assert m[0] == 0x23 || m[0] == 0x00 || m[0] == 0x89 || m[0] == 0xCD;
        NoCardFrom(Take(data, 80));
      } else {
        assert CardProbe(data, gunzipped) == [];
      }
    }
    assert Classify(data, gunzipped) == Err(UnrecognizedFileType);
    DetectIsClassify(data, gunzipped);
  }

  /** A gzip stream is `fits` exactly when its decompressed prefix passes the FITS test;
      otherwise it is unrecognised, because the later tests still see the compressed bytes
      and none of their magic numbers starts with 0x1F. */
  lemma GzipOnlyAffectsCard(data: seq<bv8>, gunzipped: seq<bv8>)
    requires GzipMagic <= data
    ensures Detect(data, gunzipped)
            == if FitsCard(Take(gunzipped, 80)) then Ok(Fits) else Err(UnrecognizedFileType)
  {
    assert data[0] == GzipMagic[0] == 0x1F;
    assert !(AsdfMarker <= data) && !(Jp2Plain <= data) && !(Jp2Extended <= data) by {
      DifferentHead(AsdfMarker, data);
      DifferentHead(Jp2Plain, data);
      DifferentHead(Jp2Extended, data);
    }
    assert !(Hdf5Magic <= data) && !HasCdfMagic(data) by {
      DifferentHead(Hdf5Magic, data);
      DifferentHead(CdfMagicBytes[0], data);
      DifferentHead(CdfMagicBytes[1], data);
      DifferentHead(CdfMagicBytes[2], data);
    }
    assert CardProbe(data, gunzipped) == Take(gunzipped, 80);
    DetectIsClassify(data, gunzipped);
  }

  lemma DifferentHead(m: seq<bv8>, data: seq<bv8>)
    requires |m| > 0 && |data| > 0 && m[0] != data[0]
    ensures !(m <= data)
  {
  }

  /** Without the gzip magic the decompressed bytes are never consulted. */
  lemma GunzippedIgnoredWithoutGzip(data: seq<bv8>, gunzipped1: seq<bv8>, gunzipped2: seq<bv8>)
    requires !(GzipMagic <= data)
    ensures Detect(data, gunzipped1) == Detect(data, gunzipped2)
  {
    DetectIsClassify(data, gunzipped1);
    DetectIsClassify(data, gunzipped2);
  }

  /** A stream that starts with a keyword card (at most 8 keyword bytes, spaces, `=`)
      within its first 80 bytes is `fits`. Such a stream cannot start with `#ASDF` or the
      gzip magic, so no earlier check intervenes. */
  lemma KeywordCardDetected(data: seq<bv8>, gunzipped: seq<bv8>, k: nat, j: nat)
    requires k <= 8 && k + j < 80 && CardShapeAt(data, k, j)
    ensures Detect(data, gunzipped) == Ok(Fits)
  {
    var probe := Take(data, 80);
    assert CardShapeAt(probe, k, j);
    assert !(AsdfMarker <= probe) by { assert probe[0] != AsdfMarker[0]; }
    assert Take(probe, 3) != GzipMagic by { assert probe[0] != GzipMagic[0]; }
  }

  /** The FITS primary header's first card, `SIMPLE  =`, marks a `fits` stream. */
  lemma SimpleCardDetected(rest: seq<bv8>, gunzipped: seq<bv8>)
    ensures Detect([0x53, 0x49, 0x4D, 0x50, 0x4C, 0x45, 0x20, 0x20, 0x3D] + rest, gunzipped) == Ok(Fits)
  {
    var data: seq<bv8> := [0x53, 0x49, 0x4D, 0x50, 0x4C, 0x45, 0x20, 0x20, 0x3D] + rest;
    assert CardShapeAt(data, 6, 2);
    KeywordCardDetected(data, gunzipped, 6, 2);
  }
}

=== FILE: tags.dfy ===
/** The format tags the detector and the registry speak about. */
module Tags {
  import opened Outcomes

  datatype Tag = Fits | Jp2 | Ana | Asdf | Hdf5 | Cdf

  /** The string the Python code uses for each tag. */
  function Name(t: Tag): string
  {
    match t
    case Fits => "fits"
    case Jp2 => "jp2"
    case Ana => "ana"
    case Asdf => "asdf"
    case Hdf5 => "hdf5"
    case Cdf => "cdf"
  }

  /** Parses a tag name; the partial inverse of `Name`. */
  function TagOf(s: string): (r: Option<Tag>)
    ensures r.Some? ==> Name(r.value) == s
    ensures r.None? ==> forall t :: Name(t) != s
  {
    if s == "fits" then Some(Fits)
    else if s == "jp2" then Some(Jp2)
    else if s == "ana" then Some(Ana)
    else if s == "asdf" then Some(Asdf)
    else if s == "hdf5" then Some(Hdf5)
    else if s == "cdf" then Some(Cdf)
    else None
  }

  /** Distinct tags have distinct names, so parsing a name gives the tag back. */
  lemma NameRoundTrip(t: Tag)
    ensures TagOf(Name(t)) == Some(t)
    ensures forall u :: Name(u) == Name(t) ==> u == t
  {
  }
}
